=== FILE: README.md ===
# radio-player state machine in Dafny

This project models the `radio-player` web component (`RadioPlayer` in
`src/radio-player.ts`): an internet-radio widget that loads a station list
through a three-tier fallback, plays one stream through an audio element,
fades the volume when switching stations, persists volume and mute in
browser storage, and lets the user search and add stations.

The component is modelled as an immutable `Player` record
(`player_state.dfy`). The audio element becomes a `Handle` value (volume,
mute flag, source). Browser storage becomes a `map<string, string>`.
Dispatched events and `alert` prompts are appended to an `effects` log.
Every operation is a pure function from a state plus explicit inputs to a
new state. Asynchronous outcomes are inputs:

- each fetch tier's decoded array, or `None` when it threw;
- whether `play()` resolves or rejects;
- the page's `parseFloat` and number-to-string conversion, passed as
  function parameters;
- whether the platform prefers a dark colour scheme.

Every operation also carries `Valid(s) ==> Valid(r)`. `Valid` is the
invariant of reachable states: the volume is in [0, 1], the component's
mute flag mirrors the element's, the element exists exactly when
initialization succeeded, and a selected station is a listed one.

Modules: `Wrappers` (Option), `Text` (lower-casing, substring search),
`PlayerState`, `Fade`, `Settings`, `Directory`, `StationFilter`, `Playback`,
`Lifecycle`.

Behaviours of the code worth knowing when reading the contracts:

- A non-empty stored mute value is always applied; any value other than
  "true" unmutes (src/radio-player.ts:327-329).
- `changeVolume` accepts both ends of [0, 1], 0 and 1 included (line 501).
- `togglePlay` assigns the selected station's url to the element only when
  the element's source is empty (line 400).
- After a switch while playing, the fade-in target is 0.8 rather than the
  volume before the switch (see Findings).

## Model

| member | source | states |
|---|---|---|
| PlayerState.Initial | src/radio-player.ts:12-28 | the freshly constructed component satisfies the state invariant and starts with no element, nothing selected, not playing, not loading, unmuted, track "Unknown", empty search text, no error and no effects |
| Lifecycle.InitializeAudio | src/radio-player.ts:271-315 | a created element starts at volume 1, unmuted, with no source, and `audioInitialized` is set; a failed creation only records "Failed to initialize audio player" |
| Lifecycle.FirstUpdated | src/radio-player.ts:261-269 | start-up ends with a non-empty list whose first station is selected and, with an element, loaded; with an element, its volume and mute are those a restore from the stored settings gives; the theme is upgraded to dark only from light when dark is preferred; a failed element creation records the error and leaves the initialised flag and mute as they were, a successful one leaves the error as it was; every other field, playback and storage included, is unchanged |
| Settings.ApplySavedSettings | src/radio-player.ts:317-331 | a stored volume is applied only if non-empty, parsed to a number and within [0, 1], else the volume is kept; a non-empty stored mute value sets mute to (value == "true") and the component mirrors it; without an element nothing changes |
| Lifecycle.BadStoredVolumeIgnored | src/radio-player.ts:319-325 | a stored volume that parses to NaN or lies outside [0, 1] leaves the new element at its default volume |
| Lifecycle.VolumeSurvivesReload | src/radio-player.ts:317-331 | a volume set with the slider and stored by `changeVolume` is the volume a reload restores, given that `parseFloat` reads back the text the page prints for that volume |
| Lifecycle.MuteSurvivesReload | src/radio-player.ts:326-330 | the mute state stored by `toggleMute` is the mute state a reload restores, on the element and in the component |
| Lifecycle.CheckDarkModePreference | src/radio-player.ts:333-338 | the theme changes exactly when the platform prefers dark and the theme is light, and then becomes dark; nothing else changes |
| Lifecycle.CheckDarkModeIdempotent | src/radio-player.ts:333-338 | applying the preference twice is the same as once |
| Lifecycle.BarColour | src/radio-player.ts:613-616 | the bar colour is a `#rrggbb` colour: neon green #39ff14, cyberpunk magenta #ff00c8, white on the dark theme, black on the light one |
| Directory.ResolveDirectory | src/radio-player.ts:340-376 | the resolved list is never empty and is the remote list, the local list or the built-in list |
| Directory.FirstUsableIsEarliest | src/radio-player.ts:340-376 | a fallback chain yields a list iff some tier is usable, and then the earliest usable one, every earlier tier having failed or been empty |
| Directory.FallbackPriority | src/radio-player.ts:340-376 | the directory is the fallback chain remote, then local, then the three built-in stations DIGI FM, Europa FM, Radio ZU in that order |
| Directory.FetchStations | src/radio-player.ts:340-387 | the list becomes the resolved directory, its first station is selected and becomes the element's source; nothing else changes |
| Playback.TogglePlay | src/radio-player.ts:389-420 | no-op without element or selection; when playing it pauses and emits `pause`; otherwise it loads the selected url only into an empty source, clears the error, and plays and emits `play` on success or records the rejection's message (or "Failed to play audio") with playing false |
| Playback.PauseThenPlayResumes | src/radio-player.ts:389-414 | pausing and then playing successfully returns to the same state, with the error cleared and `pause`, `play` emitted |
| Playback.PlayThenPauseStops | src/radio-player.ts:389-414 | a successful play followed by a pause ends not playing, on the loaded source at the same volume |
| Settings.ToggleMute | src/radio-player.ts:422-431 | flips the element's mute flag, mirrors it into the component and stores its text under `radio-muted`, leaving other keys alone; no-op without an element |
| Settings.ToggleMuteTwice | src/radio-player.ts:422-431 | toggling mute twice restores both mute flags |
| Playback.FindByUrl | src/radio-player.ts:435 | finds the first station with the url, or reports that none has it |
| Playback.ChangeStation | src/radio-player.ts:433-467 | no-op when no station has the url or there is no element; otherwise the first such station is selected and loaded, the track resets to "Unknown"; on success playing is set, the error cleared and `station-change` emitted; on rejection playing is false with "Failed to play this station" and the volume is 0 if it was playing |
| Playback.FadeInTarget | src/radio-player.ts:455 | the fade-in target is the volume itself when positive, 0.8 for a volume of 0, never above 1 |
| Playback.SwitchWhilePlayingForgetsVolume | src/radio-player.ts:441-455 | as written, a successful switch while playing always ends at volume 0.8 |
| Playback.SwitchWhilePlayingExample | src/radio-player.ts:441-455 | playing at volume 0.3, a switch ends at 0.8 |
| Playback.ChangeStationKeepingVolume | src/radio-player.ts:433-467 | with the target read before the fade-out, a successful switch keeps any positive volume; KeepingVolumeDiffersOnlyInVolume shows it otherwise does what the written switch does |
| Playback.KeepingVolumeDiffersOnlyWhilePlaying | src/radio-player.ts:433-467 | the corrected switch agrees with the written one whenever nothing is playing or `play()` is rejected |
| Playback.KeepingVolumeDiffersOnlyInVolume | src/radio-player.ts:433-467 | for every listed url with an element, the corrected switch equals the written one except for the element's final volume: the same station selected and loaded, track reset, playing and error settled, and events emitted |
| Fade.FadeVolume | src/radio-player.ts:469-493 | exactly ten steps, step k writing clamp(start + (end - start) * k/10) to the element; NaN start uses the current volume; every step in [0, 1]; the element ends at clamp(end) with nothing else changed; without an element, no steps |
| Fade.Ramp | src/radio-player.ts:473-485 | ten volumes, all in [0, 1], the last being clamp(end) |
| Fade.Clamp | src/radio-player.ts:485 | the result is in [0, 1] and equals the input when the input is |
| Fade.RampMonotone | src/radio-player.ts:484-485 | a rising fade never gets quieter and a falling fade never louder |
| Fade.RampStaysBetween | src/radio-player.ts:484-485 | a fade between two legal volumes stays between its two ends |
| Settings.ChangeVolume | src/radio-player.ts:495-515 | a value that is a number in [0, 1] becomes the volume and is stored under `radio-volume`, otherwise nothing changes; a positive value while muted also unmutes and stores "false"; 0 leaves mute alone |
| Settings.ChangeVolumeIdempotent | src/radio-player.ts:499-511 | setting the same volume twice is the same as setting it once |
| StationFilter.FilterStations | src/radio-player.ts:517-520 | the stored search text is the input with each capital A-Z replaced by its lower-case letter and every other character kept; the station list and everything else are unchanged |
| StationFilter.VisibleStations | src/radio-player.ts:670-671 | the dropdown shows an order-preserving sublist of the stations: exactly the listed stations whose lower-cased name includes the search text, each matching station as many times as it is listed |
| StationFilter.FilterCounts | src/radio-player.ts:670-671 | a matching station is shown as many times as it is listed, a non-matching one never |
| StationFilter.FilterIsSublist | src/radio-player.ts:670-671 | the visible stations are an order-preserving sublist of the stations |
| StationFilter.FilterMembers | src/radio-player.ts:670-671 | a station is visible iff it is listed and its lower-cased name includes the search text |
| StationFilter.FilterIdempotent | src/radio-player.ts:670-671 | filtering the visible list again changes nothing |
| StationFilter.EmptyFilterShowsAll | src/radio-player.ts:670-671 | an empty search shows every station in order |
| StationFilter.FilterCaseInsensitive | src/radio-player.ts:517-520 | searches differing only in letter case show identical lists, and the station list is unmodified |
| Text.ToLower | src/radio-player.ts:519 | lower-casing keeps the length, turns each capital A-Z into its own lower-case letter and leaves every other character alone |
| Text.IncludesIffOccurs | src/radio-player.ts:671 | the substring search holds iff the text occurs at some position |
| Directory.FormStation | src/radio-player.ts:535-539 | the new station has the typed name and url, and a logo only when the logo field is non-empty |
| Directory.AddStation | src/radio-player.ts:522-558 | a missing input element changes nothing; an empty name or url only raises the alert; otherwise the list grows by exactly one with the new station last and the old prefix intact, it is selected and loaded, and the form is cleared |
| Playback.OnAudioEvent | src/radio-player.ts:274-299 | `ended` stops playing; `waiting`/`stalled` set loading; `playing` clears loading and the error; `canplay` clears loading; `error` records the element's message (or "Error playing audio") and clears loading; a non-empty metadata title becomes the track; nothing else changes |
| Playback.BufferingThenPlayingRecovers | src/radio-player.ts:275-281 | buffering then resuming leaves only loading cleared and the error cleared, and buffering never changes `playing` |

## Left out

- Rendering, the CSS and the `updated` reflection of `theme` onto the host element: presentation only.
- The remote directory's field mapping (`name`, `url_resolved`, `favicon`) and JSON decoding: each tier's decoded array is an input.
- Storage I/O, `parseFloat`, `Number` and `toString`: the page's parser and number printer are parameters; the parsed slider value is an input.
- The five-second title poll: a timer; the `loadedmetadata` title handler it duplicates is modelled.
- The timers of `fadeVolume` and its duration, and overlapping `changeStation` calls racing each other: timing and concurrency.
- `setupVisualizer` (audio graph, canvas drawing, bar geometry): a browser-API wrapper; only the theme to colour choice is kept.
- IEEE floating point and infinities: volumes are Dafny reals, and ±Infinity are represented by any finite value above 1, which every guard rejects the same way.
- `window.matchMedia`: the dark preference is a boolean input.
- The element's own playback: `pause()`, `load()`, `crossOrigin` and `preload` do not appear in `Handle`, which holds only volume, mute and source.
- The `catch` branches that report "Error controlling playback" and "Error changing station", and the silent ones in `toggleMute`, `changeVolume` and `addStation`: the model's operations cannot throw.
- Text.ToLower, StationFilter.FilterStations, StationFilter.FilterCaseInsensitive: lower-casing maps only the ASCII letters A-Z, while `toLowerCase` maps every Unicode capital, the Latin ones with diacritics included; Romanian station names (Â, Ă, Î, Ș, Ț) are therefore matched case-sensitively in those letters, so searching "românia" does not show a station named "ROMÂNIA" here although the component would show it.
- `stations` set from outside after start-up: external attribute writes are not modelled.
- `vite.config.ts`: build configuration.
- Playback.TogglePlay: treats the `play()` callback as part of the same step, so events arriving before the promise settles are not interleaved.
- Playback.ChangeStation: states the end volume of its two fades; the ten intermediate volumes of each are those of Fade.FadeVolume.
- Lifecycle.FirstUpdated: stops before the visualizer, which is started one second later.

## Findings

| source | as written | input that shows it | evidently intended | confidence | as-written member | corrected member |
|---|---|---|---|---|---|---|
| src/radio-player.ts:441-455 | the fade-in target `audio.volume \|\| 0.8` is read after the fade-out has already set the volume to 0, so a switch while playing always ends at 0.8 | playing at volume 0.3, switch to another listed station, `play()` resolves: the volume ends at 0.8 | fade back in to the volume before the switch, using 0.8 only when that volume was 0 | medium, not executed | Playback.SwitchWhilePlayingForgetsVolume | Playback.ChangeStationKeepingVolume |

=== FILE: directory.dfy ===
/** The station list: loading it through the three-tier fallback at start-up,
    and adding a station typed into the form. */
module Directory {
  import opened Wrappers
  import opened PlayerState

  /** The built-in list used when neither the remote directory nor the local
      file yields stations. */
  const Hardcoded: seq<Station> := [
    Station("DIGI FM", "https://edge126.rcs-rds.ro/digifm/digifm.mp3", None),
    Station("Europa FM", "https://astreaming.edi.ro:8443/EuropaFM_aac", None),
    Station("Radio ZU", "https://live.romaniaradio.ro/zu-bucuresti", None)
  ]

  /** The outcome of one fetch tier: `None` when the request or the decoding
      throws or the body is not an array, otherwise the decoded array. A tier
      is used only when its array is non-empty. */
  predicate Usable(tier: Option<seq<Station>>) {
    tier.Some? && |tier.value| > 0
  }

  /** The station list `fetchStations` settles on: the remote directory, else
      the local file, else the built-in list. */
  function ResolveDirectory(remote: Option<seq<Station>>, local: Option<seq<Station>>): (r: seq<Station>)
    ensures |r| > 0
    ensures r == remote.GetOr([]) || r == local.GetOr([]) || r == Hardcoded
  {
    if Usable(remote) then remote.value
    else if Usable(local) then local.value
    else Hardcoded
  }

  /** A fallback chain in general: the first usable tier, if any. */
  function FirstUsable(tiers: seq<Option<seq<Station>>>): Option<seq<Station>> {
    if |tiers| == 0 then None
    else if Usable(tiers[0]) then tiers[0]
    else FirstUsable(tiers[1..])
  }

  /** The chain yields a list exactly when some tier is usable, and then it is
      the earliest usable tier: every tier before it failed. */
  lemma {:induction false} FirstUsableIsEarliest(tiers: seq<Option<seq<Station>>>)
    ensures FirstUsable(tiers).Some? <==> exists i :: 0 <= i < |tiers| && Usable(tiers[i])
    ensures FirstUsable(tiers).Some? ==>
      exists i :: 0 <= i < |tiers| && tiers[i] == FirstUsable(tiers) && Usable(tiers[i]) &&
        forall j :: 0 <= j < i ==> !Usable(tiers[j])
  {
    if |tiers| > 0 && !Usable(tiers[0]) {
      var rest := tiers[1..];
      FirstUsableIsEarliest(rest);
      if FirstUsable(rest).Some? {
        var i :| 0 <= i < |rest| && rest[i] == FirstUsable(rest) && Usable(rest[i]) &&
          forall j :: 0 <= j < i ==> !Usable(rest[j]);
        assert tiers[i + 1] == rest[i];
        forall j | 0 <= j < i + 1
          ensures !Usable(tiers[j])
        {
          if j > 0 {
            assert tiers[j] == rest[j - 1];
          }
        }
      } else {
        forall i | 0 <= i < |tiers|
          ensures !Usable(tiers[i])
        {
          if i > 0 {
            assert tiers[i] == rest[i - 1];
          }
        }
      }
    } else if |tiers| > 0 {
      assert Usable(tiers[0]);
    }
  }

  /** `fetchStations` is the fallback chain remote, local, built-in: the
      built-in tier always succeeds, and what is used is the first usable
      tier in that order. */
  lemma FallbackPriority(remote: Option<seq<Station>>, local: Option<seq<Station>>)
    ensures FirstUsable([remote, local, Some(Hardcoded)]) == Some(ResolveDirectory(remote, local))
  {
    var tiers := [remote, local, Some(Hardcoded)];
    assert tiers[1..] == [local, Some(Hardcoded)];
    assert tiers[1..][1..] == [Some(Hardcoded)];
    assert FirstUsable([Some(Hardcoded)]) == Some(Hardcoded);
    assert FirstUsable([local, Some(Hardcoded)]) ==
      if Usable(local) then local else Some(Hardcoded);
  }

  /** `fetchStations` (its selection logic): the list becomes the resolved
      directory, its first station is selected and loaded into the element. */
  function FetchStations(s: Player, remote: Option<seq<Station>>, local: Option<seq<Station>>): (r: Player)
    ensures r.stations == ResolveDirectory(remote, local)
    ensures |r.stations| > 0 && r.selected == Some(r.stations[0])
    ensures s.audio.Some? ==> r.audio == Some(s.audio.value.(src := r.stations[0].url))
    ensures s.audio.None? ==> r.audio == None
    ensures r == s.(stations := r.stations, selected := r.selected, audio := r.audio)
    ensures Valid(s) ==> Valid(r)
  {
    // The resolved list is never empty, so `fetchStations`'s
    // `stations.length > 0` check always passes and is not repeated here.
    var stations := ResolveDirectory(remote, local);
    var first := stations[0];
    s.(stations := stations,
       selected := Some(first),
       audio := if s.audio.Some? then Some(s.audio.value.(src := first.url)) else None)
  }

  /** The add-station form. A field is `None` when its input element is not
      rendered. */
  datatype StationForm = StationForm(name: Option<string>, url: Option<string>, logo: Option<string>)

  const RequiredMessage := "Name and URL are required!"

  /** The station a filled-in form describes; an empty logo means no logo. */
  function FormStation(name: string, url: string, logo: Option<string>): (st: Station)
    ensures st.name == name && st.url == url
    ensures st.logo.Some? <==> logo.Some? && logo.value != ""
    ensures st.logo.Some? ==> st.logo == logo
  {
    Station(name, url, if logo.Some? && logo.value != "" then logo else None)
  }

  /** `addStation`: with a name and a url the new station is appended,
      selected and loaded into the element, and the form is cleared; an empty
      name or url raises an alert and changes nothing else; a missing input
      element changes nothing at all. */
  function AddStation(s: Player, form: StationForm): (r: (Player, StationForm))
    ensures form.name.None? || form.url.None? ==> r == (s, form)
    ensures form.name.Some? && form.url.Some? && (form.name.value == "" || form.url.value == "") ==>
      r == (s.(effects := s.effects + [Alert(RequiredMessage)]), form)
    ensures form.name.Some? && form.url.Some? && form.name.value != "" && form.url.value != "" ==>
      var st := FormStation(form.name.value, form.url.value, form.logo);
      && |r.0.stations| == |s.stations| + 1
      && r.0.stations[..|s.stations|] == s.stations
      && r.0.stations[|s.stations|] == st
      && r.0.selected == Some(st)
      && (s.audio.Some? ==> r.0.audio == Some(s.audio.value.(src := st.url)))
      && (s.audio.None? ==> r.0.audio == None)
      && r.0 == s.(stations := r.0.stations, selected := r.0.selected, audio := r.0.audio)
      && r.1.name == Some("") && r.1.url == Some("")
      && (r.1.logo.Some? <==> form.logo.Some?) && (r.1.logo.Some? ==> r.1.logo.value == "")
    ensures Valid(s) ==> Valid(r.0)
  {
    if form.name.None? || form.url.None? then (s, form)
    else if form.name.value == "" || form.url.value == "" then
      (s.(effects := s.effects + [Alert(RequiredMessage)]), form)
    else
      var st := FormStation(form.name.value, form.url.value, form.logo);
      var added := s.(stations := s.stations + [st],
                      selected := Some(st),
                      audio := if s.audio.Some? then Some(s.audio.value.(src := st.url)) else None);
      (added, StationForm(Some(""), Some(""), if form.logo.Some? then Some("") else None))
  }
}

=== FILE: fade.dfy ===
/** The volume ramp `fadeVolume`: ten equal steps from a start volume to an
    end volume, each written to the audio element clamped to [0, 1]. The timer
    between steps is not modelled; the ramp is the sequence of volumes the
    element takes. */
module Fade {
  import opened Wrappers
  import opened PlayerState

  /** Number of steps of every fade, whatever its duration. */
  const Steps: nat := 10

  /** `Math.min(Math.max(x, 0), 1)`. */
  function Clamp(x: real): (r: real)
    ensures InUnitRange(r)
    ensures InUnitRange(x) ==> r == x
    ensures x < 0.0 ==> r == 0.0
    ensures x > 1.0 ==> r == 1.0
  {
    if x < 0.0 then 0.0 else if x > 1.0 then 1.0 else x
  }

  /** How far along the fade step `k` (1-based) is: `currentStep / steps`. */
  function Fraction(k: nat): real {
    (k as real) / (Steps as real)
  }

  /** The point a fraction `f` of the way from `start` to `end`. */
  function Lerp(start: real, end: real, f: real): real {
    start + (end - start) * f
  }

  /** The volume written at step `k` of a fade from `start` to `end`. */
  function StepVolume(start: real, end: real, k: nat): real {
    Clamp(Lerp(start, end, Fraction(k)))
  }

  /** The volumes a fade writes, in order. */
  function Ramp(start: real, end: real): (vs: seq<real>)
    ensures |vs| == Steps
    ensures forall k :: 0 <= k < |vs| ==> InUnitRange(vs[k])
    ensures vs[Steps - 1] == Clamp(end)
  {
    seq(Steps, k requires 0 <= k < Steps => StepVolume(start, end, k + 1))
  }

  /** The start the fade uses: a NaN start is replaced by the element's
      current volume. */
  function ActualStart(start: JsNumber, current: real): real {
    match start
    case NaN => current
    case Finite(x) => x
  }

  /** The element once a fade has finished: only its volume has changed, to
      the clamped end value. Without an element there is nothing to fade. */
  function Faded(h: Option<Handle>, end: real): (r: Option<Handle>)
    ensures r.Some? <==> h.Some?
    ensures h.Some? ==> r.value.muted == h.value.muted && r.value.src == h.value.src
    ensures h.Some? ==> InUnitRange(r.value.volume) && r.value.volume == Clamp(end)
  {
    match h
    case None => None
    case Some(a) => Some(a.(volume := Clamp(end)))
  }

  /** `fadeVolume(start, end, duration)`: runs the ten steps one after the
      other, writing each volume to the element, and returns the element and
      the volumes it took. */
  method FadeVolume(h: Option<Handle>, start: JsNumber, end: real) returns (r: Option<Handle>, volumes: seq<real>)
    ensures h.None? ==> r == None && volumes == []
    ensures h.Some? ==> volumes == Ramp(ActualStart(start, h.value.volume), end)
    ensures h.Some? && start.NaN? ==> volumes == Ramp(h.value.volume, end)
    ensures h.Some? ==> |volumes| == Steps && forall k :: 0 <= k < |volumes| ==> InUnitRange(volumes[k])
    ensures r == Faded(h, end)
  {
    if h.None? {
      return None, [];
    }
    var a := h.value;
    var from := ActualStart(start, a.volume);
    var step: nat := 0;
    volumes := [];
    while step < Steps
      invariant step <= Steps
      invariant |volumes| == step
      invariant forall k :: 0 <= k < step ==> volumes[k] == StepVolume(from, end, k + 1)
      invariant step == 0 ==> a == h.value
      invariant step > 0 ==> a == h.value.(volume := volumes[step - 1])
    {
      step := step + 1;
      var v := StepVolume(from, end, step);
      a := a.(volume := v);
      volumes := volumes + [v];
    }
    assert volumes == Ramp(from, end);
    r := Some(a);
  }

  /** Scaling by a non-negative factor keeps order. */
  lemma ScaleMonotone(d: real, a: real, b: real)
    requires 0.0 <= d && a <= b
    ensures d * a <= d * b
  {
    assert d * b - d * a == d * (b - a);
  }

  /** Moving further along a rising line never goes down; along a falling
      line, never up. */
  lemma LerpMonotone(start: real, end: real, f: real, g: real)
    requires f <= g
    ensures start <= end ==> Lerp(start, end, f) <= Lerp(start, end, g)
    ensures end <= start ==> Lerp(start, end, g) <= Lerp(start, end, f)
  {
    if start <= end {
      ScaleMonotone(end - start, f, g);
    } else {
      ScaleMonotone(start - end, f, g);
      assert (end - start) * f == -((start - end) * f);
      assert (end - start) * g == -((start - end) * g);
    }
  }

  /** A point a fraction in [0, 1] of the way along a line lies between its
      ends. */
  lemma LerpBetween(start: real, end: real, f: real)
    requires 0.0 <= f <= 1.0
    ensures start <= end ==> start <= Lerp(start, end, f) <= end
    ensures end <= start ==> end <= Lerp(start, end, f) <= start
  {
    LerpMonotone(start, end, 0.0, f);
    LerpMonotone(start, end, f, 1.0);
    assert Lerp(start, end, 0.0) == start;
    assert Lerp(start, end, 1.0) == end;
  }

  /** Clamping keeps order. */
  lemma ClampMonotone(x: real, y: real)
    requires x <= y
    ensures Clamp(x) <= Clamp(y)
  {
  }

  /** The fraction of the way a step has gone grows with the step. */
  lemma FractionMonotone(i: nat, j: nat)
    requires i <= j
    ensures Fraction(i) <= Fraction(j)
  {
    assert (i as real) <= (j as real);
  }

  /** Later steps of a rising fade are no quieter, of a falling fade no louder. */
  lemma StepMonotone(start: real, end: real, i: nat, j: nat)
    requires i <= j
    ensures start <= end ==> StepVolume(start, end, i) <= StepVolume(start, end, j)
    ensures end <= start ==> StepVolume(start, end, j) <= StepVolume(start, end, i)
  {
    FractionMonotone(i, j);
    var x := Lerp(start, end, Fraction(i));
    var y := Lerp(start, end, Fraction(j));
    LerpMonotone(start, end, Fraction(i), Fraction(j));
    if start <= end {
      ClampMonotone(x, y);
    } else {
      ClampMonotone(y, x);
    }
  }

  /** A fade towards a louder volume never gets quieter on the way, and a fade
      towards a quieter one never gets louder. */
  lemma RampMonotone(start: real, end: real, i: nat, j: nat)
    requires i <= j < Steps
    ensures start <= end ==> Ramp(start, end)[i] <= Ramp(start, end)[j]
    ensures end <= start ==> Ramp(start, end)[j] <= Ramp(start, end)[i]
  {
    StepMonotone(start, end, i + 1, j + 1);
  }

  /** A fade between two legal volumes passes through legal volumes only and
      never leaves the interval between its two ends. */
  lemma RampStaysBetween(start: real, end: real, k: nat)
    requires InUnitRange(start) && InUnitRange(end) && k < Steps
    ensures start <= end ==> start <= Ramp(start, end)[k] <= end
    ensures end <= start ==> end <= Ramp(start, end)[k] <= start
  {
    FractionMonotone(0, k + 1);
    FractionMonotone(k + 1, Steps);
    assert Fraction(0) == 0.0 && Fraction(Steps) == 1.0;
    LerpBetween(start, end, Fraction(k + 1));
    assert Ramp(start, end)[k] == Clamp(Lerp(start, end, Fraction(k + 1)));
  }
}

=== FILE: lifecycle.dfy ===
/** Start-up (`firstUpdated`): creating the audio element, restoring settings,
    choosing the theme and loading the stations; and the theme's bar colour. */
module Lifecycle {
  import opened Wrappers
  import opened PlayerState
  import Settings
  import Directory

  const InitFailedMessage := "Failed to initialize audio player"

  /** `initializeAudio`: `constructed` says whether creating the element
      succeeded. A new element has the default volume, no mute and no
      source. */
  function InitializeAudio(s: Player, constructed: bool): (r: Player)
    requires s.audio.None?
    ensures constructed ==> r == s.(audio := Some(Handle(DefaultVolume, false, "")), audioInitialized := true)
    ensures !constructed ==> r == s.(audioError := Some(InitFailedMessage))
    ensures Valid(s) ==> Valid(r)
  {
    if constructed then s.(audio := Some(Handle(DefaultVolume, false, "")), audioInitialized := true)
    else s.(audioError := Some(InitFailedMessage))
  }

  /** `checkDarkModePreference`: a light theme becomes dark when the platform
      prefers dark; any other theme is kept. */
  function CheckDarkModePreference(s: Player, prefersDark: bool): (r: Player)
    ensures r == s.(theme := r.theme)
    ensures r.theme != s.theme <==> prefersDark && s.theme == Light
    ensures r.theme != s.theme ==> r.theme == Dark
    ensures Valid(s) ==> Valid(r)
  {
    if prefersDark && s.theme == Light then s.(theme := Dark) else s
  }

  /** Checking the preference a second time changes nothing more. */
  lemma CheckDarkModeIdempotent(s: Player, prefersDark: bool)
    ensures CheckDarkModePreference(CheckDarkModePreference(s, prefersDark), prefersDark)
      == CheckDarkModePreference(s, prefersDark)
  {
  }

  /** A CSS colour of the form `#rrggbb` in lower-case hexadecimal. */
  predicate IsHexColour(c: string) {
    |c| == 7 && c[0] == '#' && forall i :: 1 <= i < 7 ==> '0' <= c[i] <= '9' || 'a' <= c[i] <= 'f'
  }

  /** The visualizer's bar colour for a theme: neon green, cyberpunk magenta,
      white on the dark theme and black on the light one. */
  function BarColour(theme: Theme): (c: string)
    ensures IsHexColour(c)
    ensures theme == Neon ==> c == "#39ff14"
    ensures theme == Cyberpunk ==> c == "#ff00c8"
    ensures theme == Dark ==> c == "#ffffff"
    ensures theme == Light ==> c == "#000000"
  {
    match theme
    case Neon => "#39ff14"
    case Cyberpunk => "#ff00c8"
    case Dark => "#ffffff"
    case Light => "#000000"
  }

  /** `firstUpdated` up to the visualizer: create the element, restore the
      settings, apply the theme preference and load the stations. */
  function FirstUpdated(
    s: Player, constructed: bool, parseFloat: string -> JsNumber, prefersDark: bool,
    remote: Option<seq<Station>>, local: Option<seq<Station>>): (r: Player)
    requires s.audio.None?
    ensures |r.stations| > 0 && r.selected == Some(r.stations[0])
    ensures r.stations == Directory.ResolveDirectory(remote, local)
    ensures constructed ==> r.audio.Some? && r.audio.value.src == r.stations[0].url && r.audioInitialized
    ensures !constructed ==> r.audio.None? && r.audioError == Some(InitFailedMessage)
    ensures constructed ==> r.audioError == s.audioError
    ensures !constructed ==> r.audioInitialized == s.audioInitialized && r.muted == s.muted
    ensures r.theme == (if prefersDark && s.theme == Light then Dark else s.theme)
    ensures constructed ==>
      && r.audio.value.volume == Reloaded(s.storage, parseFloat).audio.value.volume
      && r.audio.value.muted == Reloaded(s.storage, parseFloat).audio.value.muted
      && r.muted == (if Settings.HasStored(s.storage, MutedKey) then r.audio.value.muted else s.muted)
    ensures r == s.(stations := r.stations, selected := r.selected, audio := r.audio, muted := r.muted,
                    theme := r.theme, audioInitialized := r.audioInitialized, audioError := r.audioError)
    ensures Valid(s) ==> Valid(r)
  {
    var created := InitializeAudio(s, constructed);
    var restored := Settings.ApplySavedSettings(created, parseFloat);
    var themed := CheckDarkModePreference(restored, prefersDark);
    var r := Directory.FetchStations(themed, remote, local);
    assert themed == restored.(theme := themed.theme);
    assert r == themed.(stations := r.stations, selected := r.selected, audio := r.audio);
    assert restored == created.(audio := restored.audio, muted := restored.muted);
    assert r.audio.Some? ==> r.audio.value.volume == restored.audio.value.volume && r.audio.value.muted == restored.audio.value.muted;
    // With an element, the restore is the one a reload over the same storage
    // performs.
    if constructed then
      RestoreSeesOnlyElementAndStorage(created, InitializeAudio(Initial([], Light, s.storage), true), parseFloat);
      r
    else
      r
  }

  /** What restoring the settings does to the element depends only on the
      element and the storage. */
  lemma RestoreSeesOnlyElementAndStorage(a: Player, b: Player, parseFloat: string -> JsNumber)
    requires a.audio == b.audio && a.storage == b.storage
    ensures Settings.ApplySavedSettings(a, parseFloat).audio == Settings.ApplySavedSettings(b, parseFloat).audio
  {
  }

  /** The component a page reload creates over the same storage: a new
      element with its settings restored. */
  function Reloaded(storage: map<string, string>, parseFloat: string -> JsNumber): (r: Player)
    ensures r.audio.Some? && r.storage == storage
  {
    Settings.ApplySavedSettings(InitializeAudio(Initial([], Light, storage), true), parseFloat)
  }

  /** A volume set with the slider is the volume after a reload, given that
      `parseFloat` reads back the text the page prints for that volume. */
  lemma VolumeSurvivesReload(s: Player, v: real, numberText: real -> string, parseFloat: string -> JsNumber)
    requires s.audio.Some? && InUnitRange(v)
    requires numberText(v) != "" && parseFloat(numberText(v)) == Finite(v)
    ensures Reloaded(Settings.ChangeVolume(s, Finite(v), numberText).storage, parseFloat).audio.value.volume == v
  {
    var t := Settings.ChangeVolume(s, Finite(v), numberText);
    assert t.storage[VolumeKey] == numberText(v);
  }

  /** The mute state after toggling is the mute state after a reload. */
  lemma MuteSurvivesReload(s: Player, parseFloat: string -> JsNumber)
    requires s.audio.Some?
    ensures var t := Settings.ToggleMute(s);
      var r := Reloaded(t.storage, parseFloat);
      r.audio.value.muted == t.audio.value.muted && r.muted == t.muted
  {
  }

  /** An unusable stored volume leaves a reloaded element at the default
      volume. */
  lemma BadStoredVolumeIgnored(storage: map<string, string>, parseFloat: string -> JsNumber)
    requires VolumeKey in storage && !Settings.AcceptsVolume(parseFloat(storage[VolumeKey]))
    ensures Reloaded(storage, parseFloat).audio.value.volume == DefaultVolume
  {
  }
}

=== FILE: playback.dfy ===
/** Play/pause, switching stations with a fade out and in, and the audio
    element's event handlers. Each asynchronous step becomes an input: whether
    the element's `play()` resolves or rejects. */
module Playback {
  import opened Wrappers
  import opened PlayerState
  import Fade

  /** How a `play()` request settles. A rejection carries the error's message
      ("" when it has none). */
  datatype PlayOutcome = Resolves | Rejects(message: string)

  const PlayFailedMessage := "Failed to play audio"
  const StationFailedMessage := "Failed to play this station"
  const MediaErrorMessage := "Error playing audio"
  /** Fade-in target when the element's volume is 0. */
  const FallbackVolume: real := 0.8

  /** `togglePlay`: pauses when playing; otherwise loads the selected station
      if the element has no source, clears the error and asks to play. */
  function TogglePlay(s: Player, outcome: PlayOutcome): (r: Player)
    ensures s.audio.None? || s.selected.None? ==> r == s
    ensures r == s.(playing := r.playing, audio := r.audio, audioError := r.audioError, effects := r.effects)
    ensures s.audio.Some? && s.selected.Some? && s.playing ==>
      !r.playing && r.audio == s.audio && r.audioError == s.audioError && r.effects == s.effects + [PauseEvent]
    ensures s.audio.Some? && s.selected.Some? && !s.playing ==>
      && r.audio.Some?
      && r.audio.value.volume == s.audio.value.volume
      && r.audio.value.muted == s.audio.value.muted
      && r.audio.value.src == (if s.audio.value.src == "" then s.selected.value.url else s.audio.value.src)
    ensures s.audio.Some? && s.selected.Some? && !s.playing && outcome.Resolves? ==>
      r.playing && r.audioError == None && r.effects == s.effects + [PlayEvent]
    ensures s.audio.Some? && s.selected.Some? && !s.playing && outcome.Rejects? ==>
      && !r.playing && r.effects == s.effects
      && r.audioError.Some? && r.audioError.value != ""
      && (outcome.message != "" ==> r.audioError == Some(outcome.message))
      && (outcome.message == "" ==> r.audioError == Some(PlayFailedMessage))
    ensures Valid(s) ==> Valid(r)
  {
    if s.audio.None? || s.selected.None? then s
    else if s.playing then
      s.(playing := false, effects := s.effects + [PauseEvent])
    else
      var a := s.audio.value;
      var loaded := if a.src == "" then a.(src := s.selected.value.url) else a;
      match outcome
      case Resolves =>
        s.(audio := Some(loaded), audioError := None, playing := true, effects := s.effects + [PlayEvent])
      case Rejects(m) =>
        s.(audio := Some(loaded), audioError := Some(if m != "" then m else PlayFailedMessage), playing := false)
  }

  /** Pausing and then playing successfully resumes play on the same source
      at the same volume. */
  lemma PauseThenPlayResumes(s: Player, first: PlayOutcome)
    requires s.audio.Some? && s.selected.Some? && s.playing && s.audio.value.src != ""
    ensures var r := TogglePlay(TogglePlay(s, first), Resolves);
      r == s.(audioError := None, effects := s.effects + [PauseEvent, PlayEvent])
  {
  }

  /** Playing successfully and then pausing stops again, with the station's
      source loaded. */
  lemma PlayThenPauseStops(s: Player, second: PlayOutcome)
    requires s.audio.Some? && s.selected.Some? && !s.playing
    ensures var r := TogglePlay(TogglePlay(s, Resolves), second);
      && !r.playing
      && r.audio.Some?
      && r.audio.value.src == (if s.audio.value.src == "" then s.selected.value.url else s.audio.value.src)
      && r.audio.value.volume == s.audio.value.volume
      && r.audioError == None
      && r.effects == s.effects + [PlayEvent, PauseEvent]
  {
  }

  /** Index of the first station with the given url (`stations.find`). */
  function FindByUrl(stations: seq<Station>, url: string): (r: Option<nat>)
    ensures r.Some? ==> r.value < |stations| && stations[r.value].url == url
    ensures r.Some? ==> forall j :: 0 <= j < r.value ==> stations[j].url != url
    ensures r.None? ==> forall j :: 0 <= j < |stations| ==> stations[j].url != url
  {
    if |stations| == 0 then None
    else if stations[0].url == url then Some(0)
    else match FindByUrl(stations[1..], url)
      case None => None
      case Some(i) => Some(i + 1)
  }

  /** `audio.volume || 0.8`, capped at 1: the volume a station switch fades
      in to. */
  function FadeInTarget(volume: real): (t: real)
    ensures t <= 1.0
    ensures InUnitRange(volume) ==> InUnitRange(t) && t > 0.0
    ensures 0.0 < volume <= 1.0 ==> t == volume
    ensures volume == 0.0 ==> t == FallbackVolume
  {
    if volume == 0.0 then FallbackVolume else if volume < 1.0 then volume else 1.0
  }

  /** The element and flags once the new source is loaded, before `play()`:
      the source and selection change, the track resets, the error clears. */
  function Switched(s: Player, st: Station, h: Handle): (r: Player)
    ensures r.selected == Some(st) && r.currentTrack == UnknownTrack && r.audioError == None
    ensures r.audio == Some(h.(src := st.url))
    ensures r == s.(selected := r.selected, currentTrack := r.currentTrack, audioError := r.audioError, audio := r.audio)
  {
    s.(audioError := None, audio := Some(h.(src := st.url)), selected := Some(st), currentTrack := UnknownTrack)
  }

  /** `changeStation`, as written: when playing, fade the volume out to 0;
      switch the source and selection; then on a resolved `play()` mark
      playing and fade in to `FadeInTarget` of the element's CURRENT volume,
      on a rejection report the failure. */
  function ChangeStation(s: Player, url: string, outcome: PlayOutcome): (r: Player)
    ensures FindByUrl(s.stations, url).None? || s.audio.None? ==> r == s
    ensures FindByUrl(s.stations, url).Some? && s.audio.Some? ==>
      var st := s.stations[FindByUrl(s.stations, url).value];
      && r.selected == Some(st)
      && r.currentTrack == UnknownTrack
      && r.audio.Some? && r.audio.value.src == url
      && r.audio.value.muted == s.audio.value.muted
      && r == s.(selected := r.selected, currentTrack := r.currentTrack, audio := r.audio,
                 audioError := r.audioError, playing := r.playing, effects := r.effects)
      && (outcome.Resolves? ==>
            r.playing && r.audioError == None && r.effects == s.effects + [StationChangeEvent(st)])
      && (outcome.Rejects? ==>
            && !r.playing && r.audioError == Some(StationFailedMessage) && r.effects == s.effects
            && r.audio.value.volume == (if s.playing then 0.0 else s.audio.value.volume))
      && (outcome.Resolves? && Valid(s) ==>
            r.audio.value.volume == (if s.playing then FallbackVolume else FadeInTarget(s.audio.value.volume)))
    ensures Valid(s) ==> Valid(r)
  {
    match FindByUrl(s.stations, url)
    case None => s
    case Some(i) =>
      if s.audio.None? then s
      else
        var st := s.stations[i];
        var faded := if s.playing then Fade.Faded(s.audio, 0.0).value else s.audio.value;
        var switched := Switched(s, st, faded);
        match outcome
        case Resolves =>
          switched.(playing := true,
                    audio := Fade.Faded(switched.audio, FadeInTarget(faded.volume)),
                    effects := s.effects + [StationChangeEvent(st)])
        case Rejects(_) =>
          switched.(audioError := Some(StationFailedMessage), playing := false)
  }

  /** The volume a successful switch ends at, as written: after a switch
      while playing it is always 0.8, whatever the volume was, because the
      fade-in target is read after the fade-out has brought the volume to 0. */
  lemma SwitchWhilePlayingForgetsVolume(s: Player, url: string)
    requires Valid(s) && s.playing && s.audio.Some? && FindByUrl(s.stations, url).Some?
    ensures ChangeStation(s, url, Resolves).audio.value.volume == FallbackVolume
  {
  }

  /** A concrete case: at volume 0.3, switching while playing ends at 0.8. */
  lemma SwitchWhilePlayingExample()
    ensures
      var st := Station("Europa FM", "b", None);
      var s := Player([Station("DIGI FM", "a", None), st], Light, Some(st), true, false, false,
                      UnknownTrack, "", true, None, Some(Handle(0.3, false, "b")), map[], []);
      Valid(s) && ChangeStation(s, "a", Resolves).audio.value.volume == 0.8 != s.audio.value.volume
  {
  }

  /** `changeStation` as evidently intended: the volume to fade back in to is
      taken before the fade-out, so a successful switch keeps the listener's
      volume (0.8 only stands in for a volume of 0). */
  function ChangeStationKeepingVolume(s: Player, url: string, outcome: PlayOutcome): (r: Player)
    ensures FindByUrl(s.stations, url).Some? && s.audio.Some? && outcome.Resolves? && Valid(s) ==>
      && r.audio.Some?
      && r.audio.value.volume == FadeInTarget(s.audio.value.volume)
      && (s.audio.value.volume > 0.0 ==> r.audio.value.volume == s.audio.value.volume)
    ensures Valid(s) ==> Valid(r)
  {
    match FindByUrl(s.stations, url)
    case None => s
    case Some(i) =>
      if s.audio.None? then s
      else
        var previous := s.audio.value.volume;
        var st := s.stations[i];
        var faded := if s.playing then Fade.Faded(s.audio, 0.0).value else s.audio.value;
        var switched := Switched(s, st, faded);
        match outcome
        case Resolves =>
          switched.(playing := true,
                    audio := Fade.Faded(switched.audio, FadeInTarget(previous)),
                    effects := s.effects + [StationChangeEvent(st)])
        case Rejects(_) =>
          switched.(audioError := Some(StationFailedMessage), playing := false)
  }

  /** The correction changes nothing but the fade-in after a switch while
      playing: when nothing is playing, or `play()` is rejected, both versions
      agree. */
  lemma KeepingVolumeDiffersOnlyWhilePlaying(s: Player, url: string, outcome: PlayOutcome)
    requires !s.playing || outcome.Rejects?
    ensures ChangeStationKeepingVolume(s, url, outcome) == ChangeStation(s, url, outcome)
  {
  }

  /** In every case the corrected switch differs from the written one in the
      element's volume alone: it still selects and loads the station, resets
      the track, settles `playing` and the error, and emits the same events. */
  lemma KeepingVolumeDiffersOnlyInVolume(s: Player, url: string, outcome: PlayOutcome)
    requires FindByUrl(s.stations, url).Some? && s.audio.Some?
    ensures
      var w := ChangeStation(s, url, outcome);
      var c := ChangeStationKeepingVolume(s, url, outcome);
      && w.audio.Some? && c.audio.Some?
      && c == w.(audio := Some(w.audio.value.(volume := c.audio.value.volume)))
  {
  }

  /** Events the audio element reports. */
  datatype AudioEvent =
    | Ended
    | Waiting
    | Stalled
    | PlayingNow
    | CanPlay
    | MediaError(message: string)
    | LoadedMetadata(title: string)

  /** The element's event listeners. `MediaError` carries the element's
      error message ("" when there is none); `LoadedMetadata` its title. */
  function OnAudioEvent(s: Player, e: AudioEvent): (r: Player)
    ensures r == s.(playing := r.playing, loading := r.loading, audioError := r.audioError, currentTrack := r.currentTrack)
    ensures e.Ended? ==> r == s.(playing := false)
    ensures e.Waiting? || e.Stalled? ==> r == s.(loading := true)
    ensures e.PlayingNow? ==> r == s.(loading := false, audioError := None)
    ensures e.CanPlay? ==> r == s.(loading := false)
    ensures e.MediaError? ==>
      && r == s.(loading := false, audioError := r.audioError)
      && r.audioError.Some? && r.audioError.value != ""
      && (e.message != "" ==> r.audioError == Some(e.message))
      && (e.message == "" ==> r.audioError == Some(MediaErrorMessage))
    ensures e.LoadedMetadata? ==>
      r == s.(currentTrack := if e.title != "" then e.title else s.currentTrack)
    ensures Valid(s) ==> Valid(r)
  {
    match e
    case Ended => s.(playing := false)
    case Waiting => s.(loading := true)
    case Stalled => s.(loading := true)
    case PlayingNow => s.(loading := false, audioError := None)
    case CanPlay => s.(loading := false)
    case MediaError(m) => s.(audioError := Some(if m != "" then m else MediaErrorMessage), loading := false)
    case LoadedMetadata(title) => if title != "" then s.(currentTrack := title) else s
  }

  /** Buffering then resuming leaves the player as it was, minus any error
      message; buffering never changes whether the player counts as playing. */
  lemma BufferingThenPlayingRecovers(s: Player, stall: AudioEvent)
    requires stall.Waiting? || stall.Stalled?
    ensures OnAudioEvent(OnAudioEvent(s, stall), PlayingNow) == s.(loading := false, audioError := None)
    ensures OnAudioEvent(s, stall).playing == s.playing
  {
  }
}

=== FILE: player_state.dfy ===
/** The state of one `radio-player` component: its station list, the flags it
    renders from, the audio element it owns and the browser storage it
    persists settings to. The audio element and storage are plain values. */
module PlayerState {
  import opened Wrappers

  /** A station: display name, stream address and an optional logo address. */
  datatype Station = Station(name: string, url: string, logo: Option<string>)

  /** The `theme` attribute of the component. */
  datatype Theme = Light | Dark | Neon | Cyberpunk

  /** A JavaScript number as `parseFloat` or `Number` produce it. Infinite values
      are not represented: every guard in the component rejects them exactly as
      it rejects a finite value above 1. */
  datatype JsNumber = NaN | Finite(value: real)

  /** The parts of the audio element the component reads and writes. */
  datatype Handle = Handle(volume: real, muted: bool, src: string)

  /** Observable side effects: the `play`, `pause` and `station-change`
      events the component dispatches, and blocking `alert` prompts. */
  datatype Effect =
    | PlayEvent
    | PauseEvent
    | StationChangeEvent(station: Station)
    | Alert(message: string)

  /** The whole component. `audio` is `None` when the element was never
      created; `storage` is the page's key-value store; `effects` lists the
      side effects in the order they happened. */
  datatype Player = Player(
    stations: seq<Station>,
    theme: Theme,
    selected: Option<Station>,
    playing: bool,
    loading: bool,
    muted: bool,
    currentTrack: string,
    filterText: string,
    audioInitialized: bool,
    audioError: Option<string>,
    audio: Option<Handle>,
    storage: map<string, string>,
    effects: seq<Effect>)

  const VolumeKey := "radio-volume"
  const MutedKey := "radio-muted"
  const UnknownTrack := "Unknown"
  /** The volume a freshly created media element starts with. */
  const DefaultVolume: real := 1.0

  predicate InUnitRange(x: real) {
    0.0 <= x <= 1.0
  }

  /** `b.toString()`. */
  function BoolText(b: bool): string {
    if b then "true" else "false"
  }

  /** The storage maps `a` and `b` agree on every key outside `keys`. */
  predicate StorageAgreesExcept(a: map<string, string>, b: map<string, string>, keys: set<string>) {
    (forall k :: k in a && k !in keys ==> k in b && b[k] == a[k]) &&
    (forall k :: k in b && k !in keys ==> k in a)
  }

  /** What every reachable state satisfies: the element's volume is a legal
      media volume, the component's mute flag mirrors the element's, the
      element exists exactly when initialization succeeded, and a selected
      station is one of the listed ones. */
  predicate Valid(s: Player) {
    && (s.audio.Some? ==> InUnitRange(s.audio.value.volume) && s.muted == s.audio.value.muted)
    && (s.audio.None? ==> !s.muted)
    && (s.audioInitialized <==> s.audio.Some?)
    && (s.selected.Some? ==> s.selected.value in s.stations)
  }

  /** The component as constructed, before its first update: the `stations`
      and `theme` attributes it was given and the storage the page already
      holds. */
  function Initial(stations: seq<Station>, theme: Theme, storage: map<string, string>): (s: Player)
    ensures Valid(s)
    ensures s.audio.None? && s.selected.None? && !s.playing && !s.loading
    ensures s.stations == stations && s.theme == theme && s.storage == storage
    ensures s.currentTrack == UnknownTrack && s.filterText == "" && s.audioError == None
    ensures !s.muted && !s.audioInitialized && s.effects == []
  {
    Player(stations, theme, None, false, false, false, UnknownTrack, "", false, None, None, storage, [])
  }
}

=== FILE: settings.dfy ===
/** Volume and mute: restoring them from storage at start-up, and the two
    controls that change and persist them. */
module Settings {
  import opened Wrappers
  import opened PlayerState

  /** A stored value the component acts on: the key is present and its value
      is not the empty string (the truthiness test on `getItem`). */
  predicate HasStored(storage: map<string, string>, key: string) {
    key in storage && storage[key] != ""
  }

  /** A parsed number the volume guards accept: not NaN and within [0, 1]. */
  predicate AcceptsVolume(v: JsNumber) {
    v.Finite? && InUnitRange(v.value)
  }

  /** `applySavedSettings`: a stored volume is applied when it parses to an
      acceptable number; a stored mute value sets the element's mute flag to
      whether it is exactly "true", and the component mirrors it. The page's
      `parseFloat` is the parameter `parseFloat`. */
  function ApplySavedSettings(s: Player, parseFloat: string -> JsNumber): (r: Player)
    ensures s.audio.None? ==> r == s
    ensures r == s.(audio := r.audio, muted := r.muted)
    ensures s.audio.Some? ==> r.audio.Some? && r.audio.value.src == s.audio.value.src
    ensures s.audio.Some? ==>
      if HasStored(s.storage, VolumeKey) && AcceptsVolume(parseFloat(s.storage[VolumeKey]))
      then r.audio.value.volume == parseFloat(s.storage[VolumeKey]).value
      else r.audio.value.volume == s.audio.value.volume
    ensures s.audio.Some? ==>
      if HasStored(s.storage, MutedKey)
      then r.audio.value.muted == (s.storage[MutedKey] == "true") && r.muted == r.audio.value.muted
      else r.audio.value.muted == s.audio.value.muted && r.muted == s.muted
    ensures Valid(s) ==> Valid(r)
  {
    match s.audio
    case None => s
    case Some(a) =>
      var volume :=
        if HasStored(s.storage, VolumeKey) && AcceptsVolume(parseFloat(s.storage[VolumeKey]))
        then parseFloat(s.storage[VolumeKey]).value
        else a.volume;
      if HasStored(s.storage, MutedKey) then
        var muted := s.storage[MutedKey] == "true";
        s.(audio := Some(a.(volume := volume, muted := muted)), muted := muted)
      else
        s.(audio := Some(a.(volume := volume)))
  }

  /** `toggleMute`: flips the element's mute flag, mirrors it into the
      component and persists it. */
  function ToggleMute(s: Player): (r: Player)
    ensures s.audio.None? ==> r == s
    ensures r == s.(audio := r.audio, muted := r.muted, storage := r.storage)
    ensures s.audio.Some? ==>
      && r.audio.Some?
      && r.audio.value == s.audio.value.(muted := !s.audio.value.muted)
      && r.muted == r.audio.value.muted
      && MutedKey in r.storage && r.storage[MutedKey] == BoolText(r.muted)
      && StorageAgreesExcept(s.storage, r.storage, {MutedKey})
    ensures Valid(s) ==> Valid(r)
  {
    match s.audio
    case None => s
    case Some(a) =>
      var muted := !a.muted;
      s.(audio := Some(a.(muted := muted)), muted := muted, storage := s.storage[MutedKey := BoolText(muted)])
  }

  /** `changeVolume`: an acceptable value becomes the element's volume and is
      persisted in the text `numberText` gives it; raising the volume above 0
      while muted also unmutes and persists "false". Anything else is
      ignored. */
  function ChangeVolume(s: Player, v: JsNumber, numberText: real -> string): (r: Player)
    ensures s.audio.None? || !AcceptsVolume(v) ==> r == s
    ensures r == s.(audio := r.audio, muted := r.muted, storage := r.storage)
    ensures s.audio.Some? && AcceptsVolume(v) ==>
      && r.audio.Some?
      && r.audio.value.volume == v.value
      && r.audio.value.src == s.audio.value.src
      && VolumeKey in r.storage && r.storage[VolumeKey] == numberText(v.value)
      && StorageAgreesExcept(s.storage, r.storage, {VolumeKey, MutedKey})
    ensures s.audio.Some? && AcceptsVolume(v) && v.value > 0.0 && s.muted ==>
      && !r.muted && !r.audio.value.muted
      && MutedKey in r.storage && r.storage[MutedKey] == "false"
    ensures s.audio.Some? && AcceptsVolume(v) && (v.value == 0.0 || !s.muted) ==>
      && r.muted == s.muted && r.audio.value.muted == s.audio.value.muted
      && (MutedKey in r.storage <==> MutedKey in s.storage)
      && (MutedKey in s.storage ==> r.storage[MutedKey] == s.storage[MutedKey])
    ensures Valid(s) ==> Valid(r)
  {
    if s.audio.None? || !AcceptsVolume(v) then s
    else
      var a := s.audio.value.(volume := v.value);
      var stored := s.storage[VolumeKey := numberText(v.value)];
      if v.value > 0.0 && s.muted then
        s.(audio := Some(a.(muted := false)), muted := false, storage := stored[MutedKey := "false"])
      else
        s.(audio := Some(a), storage := stored)
  }

  /** Toggling mute twice restores both mute flags; what is stored is then the
      restored flag. */
  lemma ToggleMuteTwice(s: Player)
    requires Valid(s)
    ensures ToggleMute(ToggleMute(s)).audio == s.audio
    ensures ToggleMute(ToggleMute(s)).muted == s.muted
    ensures s.audio.Some? ==> ToggleMute(ToggleMute(s)).storage == s.storage[MutedKey := BoolText(s.muted)]
  {
  }

  /** Setting the same volume twice is the same as setting it once. */
  lemma ChangeVolumeIdempotent(s: Player, v: JsNumber, numberText: real -> string)
    ensures ChangeVolume(ChangeVolume(s, v, numberText), v, numberText) == ChangeVolume(s, v, numberText)
  {
  }
}

=== FILE: station_filter.dfy ===
/** The station search: `filterStations` stores the lower-cased search text
    and the station dropdown shows the stations whose lower-cased name
    includes it. */
module StationFilter {
  import opened PlayerState
  import Text

  /** A station is shown for `filterText` when its lower-cased name includes it. */
  predicate NameMatches(st: Station, filterText: string) {
    Text.Includes(Text.ToLower(st.name), filterText)
  }

  /** `stations.filter(...)`: the matching stations, in list order. */
  function FilterByName(stations: seq<Station>, filterText: string): seq<Station> {
    if |stations| == 0 then []
    else if NameMatches(stations[0], filterText) then [stations[0]] + FilterByName(stations[1..], filterText)
    else FilterByName(stations[1..], filterText)
  }

  /** `a` can be obtained from `b` by deleting elements: an order-preserving
      sublist. */
  predicate IsSublist<T(==)>(a: seq<T>, b: seq<T>)
    decreases |b|
  {
    |a| == 0 || (|b| > 0 && ((a[0] == b[0] && IsSublist(a[1..], b[1..])) || IsSublist(a, b[1..])))
  }

  /** `filterStations`: the search text is stored lower-cased; nothing else,
      the station list included, changes. */
  function FilterStations(s: Player, input: string): (r: Player)
    ensures r == s.(filterText := r.filterText)
    ensures |r.filterText| == |input|
    ensures forall i :: 0 <= i < |r.filterText| ==> !Text.IsUpper(r.filterText[i])
    ensures forall i :: 0 <= i < |input| && !Text.IsUpper(input[i]) ==> r.filterText[i] == input[i]
    ensures forall i :: 0 <= i < |input| && Text.IsUpper(input[i]) ==>
      'a' <= r.filterText[i] <= 'z' && r.filterText[i] as int - 'a' as int == input[i] as int - 'A' as int
    ensures Valid(s) ==> Valid(r)
  {
    s.(filterText := Text.ToLower(input))
  }

  /** The dropdown's options: the listed stations whose name matches the
      stored search text, in list order. */
  function VisibleStations(s: Player): (r: seq<Station>)
    ensures IsSublist(r, s.stations)
    ensures forall st :: st in r <==> st in s.stations && NameMatches(st, s.filterText)
    ensures forall st :: NameMatches(st, s.filterText) ==> multiset(r)[st] == multiset(s.stations)[st]
  {
    FilterIsSublist(s.stations, s.filterText);
    FilterMembersAll(s.stations, s.filterText);
    FilterCountsAll(s.stations, s.filterText);
    FilterByName(s.stations, s.filterText)
  }

  /** The visible list is an order-preserving sublist of the stations. */
  lemma {:induction false} FilterIsSublist(stations: seq<Station>, filterText: string)
    ensures IsSublist(FilterByName(stations, filterText), stations)
    decreases |stations|
  {
    if |stations| > 0 {
      FilterIsSublist(stations[1..], filterText);
      var rest := FilterByName(stations[1..], filterText);
      if NameMatches(stations[0], filterText) {
        assert ([stations[0]] + rest)[1..] == rest;
      }
    }
  }

  /** A station is visible exactly when it is listed and its name matches. */
  lemma {:induction false} FilterMembers(stations: seq<Station>, filterText: string, st: Station)
    ensures st in FilterByName(stations, filterText) <==> st in stations && NameMatches(st, filterText)
    decreases |stations|
  {
    if |stations| > 0 {
      FilterMembers(stations[1..], filterText, st);
      assert stations == [stations[0]] + stations[1..];
    }
  }

  /** Every station's membership at once. */
  lemma FilterMembersAll(stations: seq<Station>, filterText: string)
    ensures forall st :: st in FilterByName(stations, filterText) <==> st in stations && NameMatches(st, filterText)
  {
    forall st: Station {
      FilterMembers(stations, filterText, st);
    }
  }

  /** A matching station is shown as many times as it is listed; a station
      that does not match is not shown at all. */
  lemma {:induction false} FilterCounts(stations: seq<Station>, filterText: string, st: Station)
    ensures NameMatches(st, filterText) ==> multiset(FilterByName(stations, filterText))[st] == multiset(stations)[st]
    ensures !NameMatches(st, filterText) ==> multiset(FilterByName(stations, filterText))[st] == 0
    decreases |stations|
  {
    if |stations| > 0 {
      FilterCounts(stations[1..], filterText, st);
      assert stations == [stations[0]] + stations[1..];
    }
  }

  /** Every matching station's count at once. */
  lemma FilterCountsAll(stations: seq<Station>, filterText: string)
    ensures forall st :: NameMatches(st, filterText) ==>
      multiset(FilterByName(stations, filterText))[st] == multiset(stations)[st]
  {
    forall st: Station | NameMatches(st, filterText) {
      FilterCounts(stations, filterText, st);
    }
  }

  /** Filtering the visible list again shows the same list. */
  lemma {:induction false} FilterIdempotent(stations: seq<Station>, filterText: string)
    ensures FilterByName(FilterByName(stations, filterText), filterText) == FilterByName(stations, filterText)
    decreases |stations|
  {
    if |stations| > 0 {
      FilterIdempotent(stations[1..], filterText);
      var rest := FilterByName(stations[1..], filterText);
      if NameMatches(stations[0], filterText) {
        assert ([stations[0]] + rest)[0] == stations[0];
        assert ([stations[0]] + rest)[1..] == rest;
      }
    }
  }

  /** With an empty search every station is visible, in order. */
  lemma {:induction false} EmptyFilterShowsAll(stations: seq<Station>)
    ensures FilterByName(stations, "") == stations
    decreases |stations|
  {
    if |stations| > 0 {
      Text.IncludesEmpty(Text.ToLower(stations[0].name));
      EmptyFilterShowsAll(stations[1..]);
      assert stations == [stations[0]] + stations[1..];
    }
  }

  /** Searches that differ only in letter case show the same stations. */
  lemma FilterCaseInsensitive(s: Player, a: string, b: string)
    requires Text.SameUpToCase(a, b)
    ensures VisibleStations(FilterStations(s, a)) == VisibleStations(FilterStations(s, b))
    ensures FilterStations(s, a).stations == s.stations
  {
    Text.SameUpToCaseLowersEqual(a, b);
  }
}

=== FILE: text.dfy ===
/** The two string operations the player's filter needs: lower-casing and
    substring search (`String.prototype.toLowerCase` and `includes`). */
module Text {

  /** Lower-cases one character. Only the ASCII letters A-Z are mapped. */
  function LowerChar(c: char): char {
    if 'A' <= c <= 'Z' then (c as int + 32) as char else c
  }

  predicate IsUpper(c: char) {
    'A' <= c <= 'Z'
  }

  /** `s.toLowerCase()`, character by character. */
  function ToLower(s: string): (r: string)
    ensures |r| == |s|
    ensures forall i :: 0 <= i < |r| ==> !IsUpper(r[i])
    ensures forall i :: 0 <= i < |s| && !IsUpper(s[i]) ==> r[i] == s[i]
    ensures forall i :: 0 <= i < |s| && IsUpper(s[i]) ==>
      'a' <= r[i] <= 'z' && r[i] as int - 'a' as int == s[i] as int - 'A' as int
  {
    seq(|s|, i requires 0 <= i < |s| => LowerChar(s[i]))
  }

  /** Two strings that differ at most in the case of their letters. */
  predicate SameUpToCase(a: string, b: string) {
    |a| == |b| && forall i :: 0 <= i < |a| ==> LowerChar(a[i]) == LowerChar(b[i])
  }

  /** Strings that differ only in letter case lower-case to the same string. */
  lemma SameUpToCaseLowersEqual(a: string, b: string)
    requires SameUpToCase(a, b)
    ensures ToLower(a) == ToLower(b)
  {
    assert forall i :: 0 <= i < |a| ==> ToLower(a)[i] == ToLower(b)[i];
  }

  predicate IsPrefix(p: string, s: string) {
    |p| <= |s| && s[..|p|] == p
  }

  /** `s.includes(needle)`: is `needle` a contiguous part of `s`? Searched from
      the front, one starting position at a time. */
  predicate Includes(s: string, needle: string)
    decreases |s|
  {
    IsPrefix(needle, s) || (|s| > 0 && Includes(s[1..], needle))
  }

  /** `needle` occurs in `s` starting at index `i`. */
  predicate OccursAt(s: string, needle: string, i: int) {
    0 <= i && i + |needle| <= |s| && s[i..i + |needle|] == needle
  }

  /** An occurrence at the front is a prefix. */
  lemma OccursAtStart(s: string, needle: string)
    ensures OccursAt(s, needle, 0) <==> IsPrefix(needle, s)
  {
    if |needle| <= |s| {
      assert s[0..|needle|] == s[..|needle|];
    }
  }

  /** An occurrence after the front is an occurrence in the tail. */
  lemma OccursInTail(s: string, needle: string, i: int)
    requires |s| > 0 && i >= 1
    ensures OccursAt(s, needle, i) <==> OccursAt(s[1..], needle, i - 1)
  {
    if i + |needle| <= |s| {
      assert s[1..][i - 1..i - 1 + |needle|] == s[i..i + |needle|];
    }
  }

  /** The search agrees with the positional definition of a substring. */
  lemma {:induction false} IncludesIffOccurs(s: string, needle: string)
    ensures Includes(s, needle) <==> exists i :: OccursAt(s, needle, i)
    decreases |s|
  {
    OccursAtStart(s, needle);
    if IsPrefix(needle, s) {
      assert OccursAt(s, needle, 0);
    } else if |s| == 0 {
      assert |needle| > 0;
    } else {
      var t := s[1..];
      IncludesIffOccurs(t, needle);
      if Includes(t, needle) {
        var j :| OccursAt(t, needle, j);
        OccursInTail(s, needle, j + 1);
        assert OccursAt(s, needle, j + 1);
      } else {
        forall i
          ensures !OccursAt(s, needle, i)
        {
          if i >= 1 {
            OccursInTail(s, needle, i);
          }
        }
      }
    }
  }

  /** Every string includes the empty string. */
  lemma IncludesEmpty(s: string)
    ensures Includes(s, "")
  {
    assert IsPrefix("", s);
  }
}

=== FILE: wrappers.dfy ===
/** Optional values, the model's stand-in for `undefined` and `null`. */
module Wrappers {

  /** `None` plays the part of a missing value (`undefined`, `null`, an absent
      storage key or a form field that is not rendered). */
  datatype Option<+T> = None | Some(value: T) {

    /** Returns the value in `Some`, or `default` for `None`. */
    function GetOr(default: T): T {
      match this
      case Some(v) => v
      case None => default
    }
  }
}
